=== FILE: README.md ===
# Contact store: a Dafny model

This project models the core of a small contact-management HTTP API: the
contact store of `app/crud/crud_contacts.py` and the route handlers of
`app/api/v1/contacts.py` that map the store's answers to HTTP responses.

The store is the contact table as an immutable, ordered `seq<Contact>` in
the table's default order. Every store operation is a total function from
the table before the call to what the source returns (a record, a list, or
`None`) together with the table after the call. One call is one atomic
transition, standing for one committed transaction. The primary-key
invariant is `CrudContacts.DistinctIds`, and every operation preserves it.

Modules:

- `Options`: the `Option` result the store returns where the source returns a record or `None`.
- `Seqs`: SQL `OFFSET`/`LIMIT` paging (`Page`) and an order-preserving `Filter`.
- `Dates`: Python `datetime.date` semantics.
  - Proleptic Gregorian calendar, years 1 to 9999.
  - `toordinal` arithmetic and `replace(year=...)`.
  - A proof that ordinal order is Python's date order.
- `Text`: case-insensitive substring matching, the meaning of `ILIKE '%q%'`.
- `Schema`: the `Contact` record, the create and update payloads, and how a dumped update payload is applied.
- `CrudContacts`: `crud_contacts.py`, including its defects, as the code is written.
- `ContactsApi`: the seven route handlers of `contacts.py`.
- `Corrected`: the intended behaviour of the operations listed under "Findings", with that behaviour proved.

Parameters stand in for things the source gets elsewhere:

- The current date is the parameter `today`. The source calls `date.today()`.
- A new row's id is the largest stored id plus one. The source lets the database assign it.
- An exception the handlers do not catch becomes status 500, the framework's default.

## Model

| member | source | states |
|---|---|---|
| Seqs.Page | app/crud/crud_contacts.py:10-13 | OFFSET/LIMIT returns at most `limit` rows. It returns none when `skip` is past the end. Otherwise it returns exactly min(limit, n - skip) rows, taken in order from position `skip`. |
| Seqs.PageSplit | app/crud/crud_contacts.py:10-13 | Two consecutive pages, concatenated, equal the single page that spans both. |
| Seqs.Filter | app/crud/crud_contacts.py:127-131 | The filtered list contains exactly the input elements that satisfy the predicate, and no more elements than the input. |
| Seqs.FilterAppend | app/crud/crud_contacts.py:127-131 | Filtering preserves order: the filter of a concatenation is the concatenation of the filters. |
| Dates.ReplaceYear | app/crud/crud_contacts.py:114-116 | `replace(year=y)` keeps month and day and yields a valid date. It fails exactly for 29 February in a non-leap year. |
| Dates.DaysBeforeYearStep | app/crud/crud_contacts.py:119 | The closed-form day count before year y+1 is the count before y plus the length of year y. This is the basis of the date arithmetic. |
| Dates.OrdinalOrder | app/crud/crud_contacts.py:119-121 | For valid dates, comparing ordinals is equivalent to Python's date comparison (year, then month, then day). |
| Dates.OrdinalInjective | app/crud/crud_contacts.py:119-121 | Distinct valid dates have distinct ordinals. |
| Dates.ValidOrdinalInRange | app/crud/crud_contacts.py:119 | Every valid date's ordinal lies in 1..3652059, the range that `date - timedelta` may produce. |
| Text.Lower | app/crud/crud_contacts.py:93-96 | ASCII case folding turns every capital into its lower-case partner, so no upper-case letter is left. Every other character is kept, and the length is unchanged. |
| Text.LowerIdempotent | app/crud/crud_contacts.py:93-96 | Case folding twice is the same as case folding once. |
| Text.Contains | app/crud/crud_contacts.py:93-96 | `%q%` matching holds iff the pattern occurs at some position of the text. |
| Text.ILikeEmpty | app/crud/crud_contacts.py:93-96 | The pattern `%%` (from an empty query) matches every string. |
| Text.ILikeIgnoresCase | app/crud/crud_contacts.py:93-96 | Lower-casing the text or the query before matching changes nothing. |
| Text.LowerCaseBlind | app/crud/crud_contacts.py:93-96 | Two strings that differ only in the case of ASCII letters lower-case to the same string. |
| Text.ILikeCaseBlind | app/crud/crud_contacts.py:93-96 | The match does not depend on the case of the text or of the query: changing the case of any letters on either side gives the same answer. |
| Text.ILikeExample | app/crud/crud_contacts.py:94 | "Smith" matches the query "smith", and "smith" matches "SMITH". |
| Text.ILikeOfSubstring | app/crud/crud_contacts.py:93-96 | A query that occurs verbatim in the text is matched. |
| Schema.NewContact | app/crud/crud_contacts.py:27-35 | The inserted row carries the chosen id and exactly the six payload fields. |
| Schema.Dump | app/schemas/contact.py:4-14 | `model_dump(exclude_unset=True)` of a `ContactUpdate` sets all six fields, because all six are required. |
| Schema.Apply | app/crud/crud_contacts.py:64-68 | The `setattr` loop overwrites each field present in the payload. It keeps the id and every absent field. |
| Schema.ApplyNoChange | app/crud/crud_contacts.py:64-68 | An update payload with no fields set leaves the record unchanged. |
| Schema.ApplyDump | app/crud/crud_contacts.py:64-68 | Applying a dumped `ContactUpdate` gives the payload's six fields under the old id. |
| CrudContacts.GetContacts | app/crud/crud_contacts.py:10-13 | The listing is the stored rows from index `skip`, in store order: at most `limit` of them, and exactly min(limit, n - skip) when `skip` < n. It returns nothing when `skip` >= n. |
| CrudContacts.ListFifteen | app/crud/crud_contacts.py:10-13 | With 15 rows, pages (0,10) and (10,10) return the first ten and the last five, which together make up the whole table. |
| CrudContacts.EmailExists | app/crud/crud_contacts.py:135-139 | True iff some stored row has exactly this email. The comparison is modelled as exact string equality. |
| CrudContacts.PhoneExists | app/crud/crud_contacts.py:142-146 | True iff some stored row has exactly this phone number. |
| CrudContacts.NextId | app/crud/crud_contacts.py:36-38 | The id given to an inserted row is positive and differs from every stored id. |
| CrudContacts.Create | app/crud/crud_contacts.py:17-39 | Returns `None`, with the table unchanged, iff the email is absent from the table or the phone is absent (the inverted guard). Otherwise it appends one row with the input's fields and a fresh id, and leaves earlier rows in place. The result has distinct ids whenever the input does. |
| CrudContacts.CreateOnEmptyStoreRejected | app/crud/crud_contacts.py:19-23 | As written, create on an empty table always returns `None`. |
| CrudContacts.CreateAlwaysDuplicatesEmail | app/crud/crud_contacts.py:19-23 | Every successful create leaves two rows with the same email. |
| CrudContacts.IndexOf | app/crud/crud_contacts.py:43-44 | Finds the first row with the id, or reports that no row has it. |
| CrudContacts.GetContact | app/crud/crud_contacts.py:43-44 | Returns a stored row with the id, or `None` iff no row has that id. |
| CrudContacts.GetContactUnique | app/crud/crud_contacts.py:43-44 | Under the distinct-id invariant, the row returned is the one row with that id. |
| CrudContacts.Truthy | app/crud/crud_contacts.py:56-60 | The `if contact_update.email:` test: an unset field and the empty string are false, and any non-empty string is true. |
| CrudContacts.Update | app/crud/crud_contacts.py:48-72 | An absent id gives `None` and leaves the table unchanged. For a present id, the result is `None` iff a truthy new email is not yet in the table, or a truthy new phone is not yet in the table. The target row is not excluded from these tests. On success the table has the same size, and the target row at its own position becomes the patched record with the same id. |
| CrudContacts.UpdateLeavesOthers | app/crud/crud_contacts.py:64-72 | Every row other than the target is unchanged. |
| CrudContacts.UpdateThenGet | app/crud/crud_contacts.py:64-72 | After a successful update, reading the id returns the updated record. |
| CrudContacts.UpdateNoChange | app/crud/crud_contacts.py:64-68 | An update with no fields set returns the stored record and leaves the table unchanged. |
| CrudContacts.UpdateReplacesAllFields | app/crud/crud_contacts.py:64-68 | A successful update with a real `ContactUpdate` replaces all six fields and keeps the id. |
| CrudContacts.UpdateToFreshEmailRejected | app/crud/crud_contacts.py:56-58 | Changing an email to one that no row has returns `None` and leaves the table unchanged. |
| CrudContacts.UpdateCanDuplicateEmail | app/crud/crud_contacts.py:56-62 | Changing an email to another contact's email succeeds, and afterwards two rows share that email. |
| CrudContacts.Delete | app/crud/crud_contacts.py:76-83 | An absent id gives `None` and leaves the table unchanged. Otherwise the row with that id is returned and removed, the table shrinks by one, and the remaining rows keep their order. Under distinct ids, no row with that id remains. |
| CrudContacts.DeleteThenGet | app/crud/crud_contacts.py:76-83 | After a delete, looking up that id returns `None`. |
| CrudContacts.CreateThenGet | app/crud/crud_contacts.py:36-44 | After a successful create, looking up the new id returns the created record. |
| CrudContacts.CreateThenDelete | app/crud/crud_contacts.py:76-83 | Deleting a record that was just created restores the table that existed before the create. |
| CrudContacts.MatchesQuery | app/crud/crud_contacts.py:92-97 | The WHERE clause holds iff the lower-cased query occurs in the lower-cased firstname, lastname, email or phone number. The empty query matches every contact. |
| CrudContacts.GetContactsByQuery | app/crud/crud_contacts.py:87-102 | Returns at most `limit` rows. Each one is stored and matches the query. With skip = 0 and a limit that does not cut the result, every matching contact is returned. |
| CrudContacts.SearchSplit | app/crud/crud_contacts.py:90-100 | Page (0, a) followed by page (a, b) equals page (0, a + b), for any query. |
| CrudContacts.SearchIsPageOfMatches | app/crud/crud_contacts.py:90-100 | The filter comes before OFFSET/LIMIT: every search result is the page (`skip`, `limit`) of the one unpaged list of matches. |
| CrudContacts.SearchAppend | app/crud/crud_contacts.py:90-100 | The unpaged matches of a concatenated table are the first part's matches followed by the second part's, so results keep table order. |
| CrudContacts.SearchSoundComplete | app/crud/crud_contacts.py:90-97 | With skip = 0 and a limit that does not cut the result, a contact is returned iff it is stored and matches the query. |
| CrudContacts.SearchEmptyQuery | app/crud/crud_contacts.py:93-96 | An empty query matches every contact, so the search equals the plain listing with the same skip and limit. |
| CrudContacts.SearchFindsLastname | app/crud/crud_contacts.py:94 | A contact whose last name contains the query verbatim appears in the default page when the whole table has at most 10 rows. |
| CrudContacts.InBackwardWindow | app/crud/crud_contacts.py:111-121 | The helper's test. It needs the birthday to exist in today's year, and it never accepts a birthday later than today. A negative `days` accepts nothing, and a birthday falling on today is accepted for any `days` >= 0. |
| CrudContacts.BirthdayRaises | app/crud/crud_contacts.py:116-119 | The helper raises iff the birthday is 29 February and this year is not a leap year (`replace`), or the window start falls outside 0001-01-01..9999-12-31 (`date - timedelta`). |
| CrudContacts.BackwardWindowIsDateComparison | app/crud/crud_contacts.py:118-121 | The ordinal window equals the source's `today >= month_day >= today - days` on dates. |
| CrudContacts.GetContactsByBirthdays | app/crud/crud_contacts.py:106-132 | Fails iff the table is non-empty and either the window start is outside the representable dates or some birthday is 29 February in a non-leap current year. Otherwise it returns exactly the stored contacts whose birthday this year lies in [today - days, today], with no more rows than the table. |
| CrudContacts.BirthdaysInStoreOrder | app/crud/crud_contacts.py:127-132 | Birthday results keep table order. The result for a concatenated table is the concatenation of the two results. |
| CrudContacts.BirthdaysIgnorePaging | app/crud/crud_contacts.py:106-108 | `skip` and `limit` do not affect the result. |
| CrudContacts.BackwardWindowExample | app/crud/crud_contacts.py:119-121 | Take a 10 March birthday and a window of 5 days. It is not reported on 7 March, three days before it. It is reported on 12 March, two days after it. |
| ContactsApi.CreatedResponse | app/api/v1/contacts.py:28-34 | `None` maps to 400 with the "already exists" detail. A record maps to 201 with that record. |
| ContactsApi.FoundResponse | app/api/v1/contacts.py:40-43 | `None` maps to 404 "Contact not found". A record maps to 200 with that record. |
| ContactsApi.DeletedResponse | app/api/v1/contacts.py:62-66 | `None` maps to 404. A removed record maps to 204 with no body. |
| ContactsApi.ReadContacts | app/api/v1/contacts.py:14-19 | Responds 200 with the store's page for the same `skip` and `limit`: an empty list once `skip` is past the end, otherwise at most `limit` contacts taken in order from position `skip`. |
| ContactsApi.ReadContactsDefaults | app/api/v1/contacts.py:15-16 | With the defaults skip=0 and limit=10, the response is the first min(10, n) contacts. |
| ContactsApi.CreateContact | app/api/v1/contacts.py:23-34 | Responds 400 iff the email or the phone is new to the table, and then the table is unchanged. Otherwise it responds 201 with the new record and appends that record to the table. |
| ContactsApi.CreateFreshEmailIs400 | app/api/v1/contacts.py:28-33 | A create with an email no contact has is answered 400 "already exists". |
| ContactsApi.ReadContact | app/api/v1/contacts.py:38-43 | Responds 404 iff no row has the id. Otherwise it responds 200 with the stored row that has that id. |
| ContactsApi.ReadNegativeIdIs404 | app/api/v1/contacts.py:38-43 | A negative id, which the route accepts as an `int`, is answered 404. |
| ContactsApi.UpdateContact | app/api/v1/contacts.py:47-56 | Responds only with 200 or 404, never 400. It responds 404 iff the id is missing, or a non-empty new email is not yet in the table, or a non-empty new phone is not yet in the table. On 404 the table is unchanged. On 200 the body is the payload under the same id, and that id's row is replaced by it. |
| ContactsApi.UpdateConflictIs404 | app/api/v1/contacts.py:53-55 | An update of an existing contact that the email guard rejects is answered 404 "Contact not found". |
| ContactsApi.DeleteContact | app/api/v1/contacts.py:60-66 | Responds 404 iff the id is absent, and then the table is unchanged. Otherwise it responds 204 with no body, and the table has one row fewer. |
| ContactsApi.DeleteTwice | app/api/v1/contacts.py:60-66 | Deleting the same id a second time is answered 404. |
| ContactsApi.ReadContactsByQuery | app/api/v1/contacts.py:70-77 | Responds 200 with the store's search page for the same query, `skip` and `limit`: at most `limit` stored contacts, each of which matches the query. With skip = 0 and a limit that does not cut the result, every matching contact is included. |
| ContactsApi.ReadContactsForBirthdays | app/api/v1/contacts.py:81-88 | Responds 500 iff the store raises. Otherwise it responds 200 with the store's list unchanged: exactly the stored contacts in the backward window, in table order, however small `limit` is. |
| ContactsApi.BirthdaysExceedLimit | app/api/v1/contacts.py:81-88 | With limit=1, the birthday response can still hold two contacts. |

## Findings

| source | as written | input that shows it | evidently intended | confidence | as-written member | corrected member |
|---|---|---|---|---|---|---|
| app/crud/crud_contacts.py:19-23 | create returns `None` unless the email and the phone both already exist | any payload against an empty table gives `None`, which the handler reports as 400 "already exists" | refuse only when the email or the phone is already taken | high; not executed | CrudContacts.CreateOnEmptyStoreRejected | Corrected.Create |
| app/crud/crud_contacts.py:56-62 | update refuses a truthy email or phone that does NOT exist, and counts the target row as existing | changing contact a's email to contact b's email succeeds and duplicates it; changing it to a new email is refused | refuse a value that another contact holds, and accept the contact's own value | high; not executed | CrudContacts.UpdateCanDuplicateEmail | Corrected.Update |
| app/crud/crud_contacts.py:119-121 | the window is [today - days, today] | birthday 1990-03-10 with today 2024-03-07 and days 5 is excluded; with today 2024-03-12 it is included | [today, today + days], as the helper's name and docstring say | high; not executed | CrudContacts.BackwardWindowExample | Corrected.ForwardWindowExample |
| app/crud/crud_contacts.py:106-132 | `skip` and `limit` are accepted and ignored | two matching contacts with limit=1 both come back | apply OFFSET/LIMIT as the other list endpoints do | medium; not executed | ContactsApi.BirthdaysExceedLimit | Corrected.Birthdays |

The corrected members keep the as-written operations' signatures and response mapping:

- `Corrected.Create` returns `None` iff the email or the phone is already in the table. It preserves the distinct-id invariant and email/phone uniqueness (`Corrected.Unique`). `Corrected.CreateTwiceRejected` and `Corrected.CreateConflictIs400` build on it.
- `Corrected.Update` separates a missing id from a conflict with another contact. It preserves both invariants. `Corrected.UpdateKeepingOwnValues` shows that a contact can keep its own values. `Corrected.UpdatedResponse` maps a conflict to 400.
- `Corrected.Birthdays` returns at most `limit` contacts, all within the forward window. `Corrected.BirthdaysComplete` shows that no upcoming birthday is missed when the limit does not cut the result. `Corrected.BirthdaysIsPageOfMatches` shows that every page is the (`skip`, `limit`) page of the unpaged answer.

The handlers in `ContactsApi` call the store as written, because that is what the router imports.

## Left out

- The SQLAlchemy session, `commit` and `refresh`: each store call is one atomic transition.
- Store failures (StoreError): the model has no failing backend.
- The race between an existence check and the insert or update that follows it: this is concurrency.
- Database id assignment: the next id is modelled as the largest id plus one. A database sequence would never reuse the id of a deleted maximum row.
- `owner_id` (app/crud/crud_contacts.py:34): `ContactCreate` does not declare it (app/schemas/contact.py:4-10), so the record omits it. In the code as written, reading `contact_in.owner_id` raises AttributeError, so every create that passes the guard would end in a 500. The model's 201 path therefore describes the insert the code sets out to make, which the source never reaches.
- `EmailStr` syntax validation and any other Pydantic validation: payloads are taken as already validated, and the email is an opaque string.
- Birthday storage: the schema declares the birthday as a `str`, but the store calls `date.replace` on it. The model file that fixes the column type is not part of this model, so birthdays are modelled as dates.
- `date.today()` is called twice per contact. The model uses one `today` for the whole request, so it does not model midnight falling during a request.
- CrudContacts.GetContacts: `skip` and `limit` are natural numbers. Negative OFFSET and LIMIT behave differently on different database backends, so they are not modelled.
- ContactsApi.ReadContacts: `skip` and `limit` are natural numbers, for the same reason.
- CrudContacts.GetContactsByQuery: `skip` and `limit` are natural numbers, for the same reason.
- ContactsApi.ReadContactsByQuery: `skip` and `limit` are natural numbers, for the same reason.
- Schema.NewContact: stored ids are natural numbers, because the database assigns them counting from 1. Request ids are full integers, so a negative id is a request that is answered 404.
- CrudContacts.GetContactsByQuery: `%` and `_` inside the query are treated as literal characters, not as `ILIKE` wildcards. Case folding is ASCII only, and database collation is not modelled.
- CrudContacts.EmailExists, CrudContacts.PhoneExists: SQL `=` is modelled as exact string equality; a case- or accent-insensitive database collation would make these checks looser, and the database backend is not part of this model.
- Route dispatch between `/{contact_id}` and `/{query}` (app/api/v1/contacts.py:38 and :70): this is framework behaviour.
- The response model's serialisation, and the framework's handling of bodies on a 204 response.
- `app/crud/crud_contact.py`: it is a duplicate module that the router does not import.
- `debug.py` and `app/main.py`: these are I/O and framework wiring.
- Corrected.Birthdays: moves the birthday into the current year only. A birthday in early January seen from late December is not treated as upcoming.

=== FILE: contacts_api.dfy ===
/**
 The route handlers of `app/api/v1/contacts.py`: each one forwards its
 arguments to one store operation and turns the store's answer into an
 HTTP status and body. An exception the handler does not catch becomes
 the framework's 500 response.
 */
module ContactsApi {
  import opened Options
  import opened Dates
  import opened Seqs
  import opened Schema
  import Crud = CrudContacts

  const StatusOk: nat := 200
  const StatusCreated: nat := 201
  const StatusNoContent: nat := 204
  const StatusBadRequest: nat := 400
  const StatusNotFound: nat := 404
  const StatusServerError: nat := 500

  const AlreadyExists: string := "Contact with this email or phone number already exists."
  const NotFound: string := "Contact not found"

  datatype Body =
    | Record(contact: Contact)
    | Records(contacts: seq<Contact>)
    | Detail(message: string)
    | NoBody

  datatype Response = Response(status: nat, body: Body)

  /** A response together with the table the request left behind. */
  datatype Exchange = Exchange(store: Crud.Store, response: Response)

  // ----- result-to-response maps ------------------------------------------

  /** POST: no record means 400 "already exists"; a record means 201 with it. */
  function CreatedResponse(r: Option<Contact>): (resp: Response)
    ensures r.None? <==> resp.status == StatusBadRequest
    ensures r.None? ==> resp.body == Detail(AlreadyExists)
    ensures r.Some? ==> resp == Response(StatusCreated, Record(r.value))
  {
    match r
    case None => Response(StatusBadRequest, Detail(AlreadyExists))
    case Some(c) => Response(StatusCreated, Record(c))
  }

  /** GET one and PATCH: no record means 404; a record means 200 with it. */
  function FoundResponse(r: Option<Contact>): (resp: Response)
    ensures r.None? <==> resp.status == StatusNotFound
    ensures r.None? ==> resp.body == Detail(NotFound)
    ensures r.Some? ==> resp == Response(StatusOk, Record(r.value))
  {
    match r
    case None => Response(StatusNotFound, Detail(NotFound))
    case Some(c) => Response(StatusOk, Record(c))
  }

  /** DELETE: no record means 404; a removed record means 204 with no body. */
  function DeletedResponse(r: Option<Contact>): (resp: Response)
    ensures r.None? <==> resp.status == StatusNotFound
    ensures r.Some? <==> resp == Response(StatusNoContent, NoBody)
  {
    match r
    case None => Response(StatusNotFound, Detail(NotFound))
    case Some(_) => Response(StatusNoContent, NoBody)
  }

  // ----- handlers ---------------------------------------------------------

  /** GET /: the listing, with `skip` 0 and `limit` 10 unless given. */
  function ReadContacts(s: Crud.Store, skip: nat := 0, limit: nat := 10): (resp: Response)
    ensures resp.status == StatusOk && resp.body.Records?
    ensures resp.body.contacts == Crud.GetContacts(s, skip, limit)
    ensures |resp.body.contacts| <= limit
    ensures skip >= |s| ==> resp.body.contacts == []
    ensures skip < |s| ==> |resp.body.contacts| == Min(limit, |s| - skip)
                           && resp.body.contacts <= s[skip..]
  {
    Response(StatusOk, Records(Crud.GetContacts(s, skip, limit)))
  }

  /** Without query parameters the listing is the first ten contacts. */
  lemma ReadContactsDefaults(s: Crud.Store)
    ensures ReadContacts(s).body.contacts == s[..Min(10, |s|)]
  {
  }

  /** POST /. */
  function CreateContact(s: Crud.Store, input: ContactIn): (x: Exchange)
    ensures x.response.status == StatusCreated || x.response.status == StatusBadRequest
    ensures x.response.status == StatusBadRequest <==>
              || !(exists i :: 0 <= i < |s| && s[i].email == input.email)
              || !(exists i :: 0 <= i < |s| && s[i].phoneNumber == input.phoneNumber)
    ensures x.response.status == StatusBadRequest ==> x.store == s
    ensures x.response.status == StatusCreated ==>
              x.response.body.Record? && Fields(x.response.body.contact) == input
              && x.store == s + [x.response.body.contact]
  {
    var step := Crud.Create(s, input);
    Exchange(step.store, CreatedResponse(step.result))
  }

  /** Creating a contact with a new email fails with the "already exists" message. */
  lemma CreateFreshEmailIs400(s: Crud.Store, input: ContactIn)
    requires !Crud.EmailExists(s, input.email)
    ensures CreateContact(s, input) == Exchange(s, Response(StatusBadRequest, Detail(AlreadyExists)))
  {
  }

  /** GET /{contact_id}. */
  function ReadContact(s: Crud.Store, id: int): (resp: Response)
    ensures resp.status == StatusNotFound <==> !Crud.HasId(s, id)
    ensures resp.status != StatusNotFound ==>
              resp.status == StatusOk && resp.body.Record?
              && resp.body.contact in s && resp.body.contact.id == id
  {
    FoundResponse(Crud.GetContact(s, id))
  }

  /** Stored ids are never negative, so a request for `/contacts/-1` is answered 404. */
  lemma ReadNegativeIdIs404(s: Crud.Store, id: int)
    requires id < 0
    ensures ReadContact(s, id) == Response(StatusNotFound, Detail(NotFound))
  {
  }

  /**
   PATCH /{contact_id}: every `None` from the store, whether the id is
   missing or a guard refused the new email or phone, is answered 404.
   */
  function UpdateContact(s: Crud.Store, id: int, u: ContactIn): (x: Exchange)
    ensures x.response.status == StatusOk || x.response.status == StatusNotFound
    ensures x.response.status == StatusNotFound <==>
              || !Crud.HasId(s, id)
              || (u.email != "" && !Crud.EmailExists(s, u.email))
              || (u.phoneNumber != "" && !Crud.PhoneExists(s, u.phoneNumber))
    ensures x.response.status == StatusNotFound ==>
              x.store == s && x.response.body == Detail(NotFound)
    ensures x.response.status == StatusOk ==>
              && id >= 0
              && x.response == Response(StatusOk, Record(NewContact(id, u)))
              && exists i :: 0 <= i < |s| && s[i].id == id && x.store == s[i := NewContact(id, u)]
  {
    var step := Crud.Update(s, id, Dump(u));
    assert step.result.Some? ==> step.result.value == NewContact(id, u) by {
      if step.result.Some? {
        Crud.UpdateReplacesAllFields(s, id, u);
      }
    }
    Exchange(step.store, FoundResponse(step.result))
  }

  /**
   A conflict is reported as "not found": an existing contact whose new email
   is rejected by the store's guard gets a 404, never a 400.
   */
  lemma UpdateConflictIs404(s: Crud.Store, id: int, u: ContactIn)
    requires Crud.HasId(s, id)
    requires u.email != "" && !Crud.EmailExists(s, u.email)
    ensures UpdateContact(s, id, u) == Exchange(s, Response(StatusNotFound, Detail(NotFound)))
  {
  }

  /** DELETE /{contact_id}. */
  function DeleteContact(s: Crud.Store, id: int): (x: Exchange)
    ensures x.response.status == StatusNotFound <==> !Crud.HasId(s, id)
    ensures x.response.status == StatusNotFound ==> x.store == s
    ensures x.response.status != StatusNotFound ==>
              x.response == Response(StatusNoContent, NoBody) && |x.store| == |s| - 1
  {
    var step := Crud.Delete(s, id);
    Exchange(step.store, DeletedResponse(step.result))
  }

  /** Deleting twice: the second request answers 404. */
  lemma DeleteTwice(s: Crud.Store, id: int)
    requires Crud.DistinctIds(s)
    ensures DeleteContact(DeleteContact(s, id).store, id).response.status == StatusNotFound
  {
  }

  /** GET /{query}. */
  function ReadContactsByQuery(s: Crud.Store, q: string, skip: nat := 0, limit: nat := 10): (resp: Response)
    ensures resp.status == StatusOk && resp.body.Records?
    ensures resp.body.contacts == Crud.GetContactsByQuery(s, q, skip, limit)
    ensures |resp.body.contacts| <= limit
    ensures forall c :: c in resp.body.contacts ==> c in s && Crud.MatchesQuery(c, q)
    ensures skip == 0 && limit >= |s| ==>
              forall c :: c in s && Crud.MatchesQuery(c, q) ==> c in resp.body.contacts
  {
    Response(StatusOk, Records(Crud.GetContactsByQuery(s, q, skip, limit)))
  }

  /**
   GET /birthdays/{day}: `day`, `skip` and `limit` reach the store unchanged;
   the store's exception becomes a 500, its list the 200 body.
   */
  function ReadContactsForBirthdays(s: Crud.Store, today: Date, day: int, skip: int := 0, limit: int := 10)
    : (resp: Response)
    requires Valid(today) && Crud.ValidBirthdays(s)
    ensures resp.status == StatusOk || resp.status == StatusServerError
    ensures resp.status == StatusServerError <==> Crud.GetContactsByBirthdays(s, today, day).None?
    ensures resp.status == StatusOk ==>
              resp.body == Records(Crud.GetContactsByBirthdays(s, today, day, skip, limit).value)
    ensures resp.status == StatusOk ==>
              && resp.body.Records?
              && (forall c :: c in resp.body.contacts ==>
                    c in s && Valid(c.birthday) && Crud.InBackwardWindow(c.birthday, today, day))
              && (forall i :: 0 <= i < |s| && Crud.InBackwardWindow(s[i].birthday, today, day) ==>
                    s[i] in resp.body.contacts)
  {
    match Crud.GetContactsByBirthdays(s, today, day, skip, limit)
    case None => Response(StatusServerError, NoBody)
    case Some(cs) => Response(StatusOk, Records(cs))
  }

  /**
   The `limit` does not bound the birthday response: two contacts whose
   birthday was yesterday both come back under `limit` 1.
   */
  lemma BirthdaysExceedLimit(a: Contact, b: Contact)
    requires a.birthday == Date(2000, 6, 14) && b.birthday == Date(1985, 6, 14)
    ensures var resp := ReadContactsForBirthdays([a, b], Date(2024, 6, 15), 7, 0, 1);
            resp.status == StatusOk && |resp.body.contacts| == 2
  {
    var f := (c: Contact) => Valid(c.birthday) && Crud.InBackwardWindow(c.birthday, Date(2024, 6, 15), 7);
    assert f(a) && f(b);
    assert Filter([a, b], f) == [a, b];
  }
}

=== FILE: corrected.dfy ===
/**
 The store operations as the handlers' messages and the helper's docstring
 describe them: create and update reject an email or phone number that is
 already taken by another contact, and the birthday query looks forward from
 today and honours `skip` and `limit`.
 */
module Corrected {
  import opened Options
  import opened Dates
  import opened Seqs
  import opened Schema
  import Crud = CrudContacts
  import Api = ContactsApi

  /** No two contacts share an email or a phone number. */
  predicate Unique(s: Crud.Store) {
    forall i, j :: 0 <= i < j < |s| ==>
      s[i].email != s[j].email && s[i].phoneNumber != s[j].phoneNumber
  }

  /** Create, refusing an email or phone number that is already in the table. */
  function Create(s: Crud.Store, input: ContactIn): (r: Crud.Step)
    ensures r.result.None? <==>
              || (exists i :: 0 <= i < |s| && s[i].email == input.email)
              || (exists i :: 0 <= i < |s| && s[i].phoneNumber == input.phoneNumber)
    ensures r.result.None? ==> r.store == s
    ensures r.result.Some? ==>
              && Fields(r.result.value) == input
              && !Crud.HasId(s, r.result.value.id)
              && r.store == s + [r.result.value]
    ensures Crud.DistinctIds(s) ==> Crud.DistinctIds(r.store)
    ensures Unique(s) ==> Unique(r.store)
  {
    if Crud.EmailExists(s, input.email) || Crud.PhoneExists(s, input.phoneNumber) then
      Crud.Step(None, s)
    else
      var c := NewContact(Crud.NextId(s), input);
      Crud.Step(Some(c), s + [c])
  }

  /** Creating the same contact twice: the second request is refused. */
  lemma CreateTwiceRejected(s: Crud.Store, input: ContactIn)
    requires Create(s, input).result.Some?
    ensures Create(Create(s, input).store, input).result.None?
  {
    var t := Create(s, input).store;
    assert t[|s|].email == input.email;
  }

  /** Into an empty table every create succeeds, and reading it back returns it. */
  lemma CreateIntoEmpty(input: ContactIn)
    ensures Create([], input).result.Some?
    ensures Crud.GetContact(Create([], input).store, Create([], input).result.value.id)
            == Create([], input).result
  {
  }

  /** Through the unchanged POST handler, 400 now means exactly a conflict. */
  lemma CreateConflictIs400(s: Crud.Store, input: ContactIn)
    ensures Api.CreatedResponse(Create(s, input).result).status == Api.StatusBadRequest <==>
              Crud.EmailExists(s, input.email) || Crud.PhoneExists(s, input.phoneNumber)
  {
  }

  datatype UpdateOutcome =
    | Missing
    | Conflict
    | Updated(contact: Contact, store: Crud.Store)

  /** Some contact other than `id` already has this email. */
  predicate EmailTaken(s: Crud.Store, id: int, email: string) {
    exists k :: 0 <= k < |s| && s[k].id != id && s[k].email == email
  }

  /** Some contact other than `id` already has this phone number. */
  predicate PhoneTaken(s: Crud.Store, id: int, phone: string) {
    exists k :: 0 <= k < |s| && s[k].id != id && s[k].phoneNumber == phone
  }

  /**
   Update, refusing a new email or phone number that another contact holds;
   the target's own current values do not count as a conflict.
   */
  function Update(s: Crud.Store, id: int, p: Patch): (r: UpdateOutcome)
    ensures r.Missing? <==> !Crud.HasId(s, id)
    ensures r.Conflict? <==>
              && Crud.HasId(s, id)
              && (|| (p.email.Some? && EmailTaken(s, id, p.email.value))
                  || (p.phoneNumber.Some? && PhoneTaken(s, id, p.phoneNumber.value)))
    ensures r.Updated? ==>
              && |r.store| == |s|
              && r.contact.id == id
              && exists i :: && 0 <= i < |s| && s[i].id == id
                             && r.contact == Apply(s[i], p)
                             && r.store == s[i := r.contact]
    ensures r.Updated? && Crud.DistinctIds(s) ==> Crud.DistinctIds(r.store)
    ensures r.Updated? && Crud.DistinctIds(s) && Unique(s) ==> Unique(r.store)
  {
    match Crud.IndexOf(s, id)
    case None => Missing
    case Some(i) =>
      if p.email.Some? && EmailTaken(s, id, p.email.value) then Conflict
      else if p.phoneNumber.Some? && PhoneTaken(s, id, p.phoneNumber.value) then Conflict
      else
        var c := Apply(s[i], p);
        var t := s[i := c];
        assert Crud.DistinctIds(s) ==> forall k :: 0 <= k < |s| && k != i ==> s[k].id != id;
        Updated(c, t)
  }

  /** A contact may be updated with its own current email and phone number. */
  lemma UpdateKeepingOwnValues(s: Crud.Store, i: int)
    requires Crud.DistinctIds(s) && Unique(s)
    requires 0 <= i < |s|
    ensures Update(s, s[i].id, Dump(Fields(s[i]))) == Updated(s[i], s)
  {
    assert Crud.IndexOf(s, s[i].id) == Some(i);
    ApplyDump(s[i], Fields(s[i]));
    assert !EmailTaken(s, s[i].id, s[i].email);
    assert !PhoneTaken(s, s[i].id, s[i].phoneNumber);
    assert s[i := s[i]] == s;
  }

  /** PATCH with the conflict told apart: 404 for a missing id, 400 for a conflict. */
  function UpdatedResponse(r: UpdateOutcome): (resp: Api.Response)
    ensures r.Missing? <==> resp.status == Api.StatusNotFound
    ensures r.Conflict? <==> resp.status == Api.StatusBadRequest
    ensures r.Updated? ==> resp == Api.Response(Api.StatusOk, Api.Record(r.contact))
  {
    match r
    case Missing => Api.Response(Api.StatusNotFound, Api.Detail(Api.NotFound))
    case Conflict => Api.Response(Api.StatusBadRequest, Api.Detail(Api.AlreadyExists))
    case Updated(c, _) => Api.Response(Api.StatusOk, Api.Record(c))
  }

  /**
   The birthday, moved into today's year, falls on today or within the
   next `days` days.
   */
  predicate InForwardWindow(b: Date, today: Date, days: int)
    requires Valid(b) && Valid(today)
  {
    var md := ReplaceYear(b, today.year);
    md.Some? && Ordinal(today) <= Ordinal(md.value) <= Ordinal(today) + days
  }

  predicate BirthdayRaises(c: Contact, today: Date, days: int)
    requires Valid(c.birthday) && Valid(today)
  {
    ReplaceYear(c.birthday, today.year).None? || !OrdinalInRange(Ordinal(today) + days)
  }

  /** Upcoming birthdays, in table order, with OFFSET/LIMIT applied. */
  function Birthdays(s: Crud.Store, today: Date, days: int, skip: nat := 0, limit: nat := 10)
    : (r: Option<seq<Contact>>)
    requires Valid(today) && Crud.ValidBirthdays(s)
    ensures r.None? <==>
              && |s| > 0
              && (|| !OrdinalInRange(Ordinal(today) + days)
                  || exists i :: 0 <= i < |s| && s[i].birthday.month == 2 && s[i].birthday.day == 29
                                               && !IsLeap(today.year))
    ensures r.Some? ==> |r.value| <= limit
    ensures r.Some? ==> forall c :: c in r.value ==> c in s && Valid(c.birthday)
                                                     && InForwardWindow(c.birthday, today, days)
  {
    if exists i :: 0 <= i < |s| && BirthdayRaises(s[i], today, days) then None
    else Some(Page(Filter(s, (c: Contact) => Valid(c.birthday) && InForwardWindow(c.birthday, today, days)),
                   skip, limit))
  }

  /**
   Paging is applied to the list of upcoming birthdays: each page is a page
   of the unpaged answer, and an error does not depend on the paging.
   */
  lemma BirthdaysIsPageOfMatches(s: Crud.Store, today: Date, days: int, skip: nat, limit: nat)
    requires Valid(today) && Crud.ValidBirthdays(s)
    ensures Birthdays(s, today, days, skip, limit).None? <==> Birthdays(s, today, days, 0, |s|).None?
    ensures Birthdays(s, today, days, skip, limit).Some? ==>
              Birthdays(s, today, days, skip, limit).value
              == Page(Birthdays(s, today, days, 0, |s|).value, skip, limit)
  {
    var f := (c: Contact) => Valid(c.birthday) && InForwardWindow(c.birthday, today, days);
    PageWhole(Filter(s, f), |s|);
  }

  /** With no paging cut, every contact with an upcoming birthday is returned. */
  lemma BirthdaysComplete(s: Crud.Store, today: Date, days: int, limit: nat, i: int)
    requires Valid(today) && Crud.ValidBirthdays(s)
    requires Birthdays(s, today, days, 0, limit).Some?
    requires limit >= |s|
    requires 0 <= i < |s| && InForwardWindow(s[i].birthday, today, days)
    ensures s[i] in Birthdays(s, today, days, 0, limit).value
  {
    var f := (c: Contact) => Valid(c.birthday) && InForwardWindow(c.birthday, today, days);
    PageWhole(Filter(s, f), limit);
  }

  /**
   A birthday on 10 March is reported five days ahead of it, on 7 March,
   and no longer once it has passed, on 20 March.
   */
  lemma ForwardWindowExample(c: Contact)
    requires c.birthday == Date(1990, 3, 10)
    ensures Birthdays([c], Date(2024, 3, 7), 5) == Some([c])
    ensures Birthdays([c], Date(2024, 3, 20), 5) == Some([])
  {
    var f1 := (x: Contact) => Valid(x.birthday) && InForwardWindow(x.birthday, Date(2024, 3, 7), 5);
    assert f1(c);
    assert Filter([c], f1) == [c];
    var f2 := (x: Contact) => Valid(x.birthday) && InForwardWindow(x.birthday, Date(2024, 3, 20), 5);
    assert !f2(c);
    assert Filter([c], f2) == [];
  }
}

=== FILE: crud_contacts.dfy ===
/**
 The contact store of `app/crud/crud_contacts.py`, modelled as written.
 The store is the contact table in its default order; every operation is one
 atomic transition from the old table to the new one, returning the record
 the source returns, or `None`.
 */
module CrudContacts {
  import opened Options
  import opened Dates
  import opened Text
  import opened Seqs
  import opened Schema

  type Store = seq<Contact>

  /** What a store operation returns, and the table after it. */
  datatype Step = Step(result: Option<Contact>, store: Store)

  /** The primary-key invariant of the table. */
  predicate DistinctIds(s: Store) {
    forall i, j :: 0 <= i < j < |s| ==> s[i].id != s[j].id
  }

  predicate HasId(s: Store, id: int) {
    exists i :: 0 <= i < |s| && s[i].id == id
  }

  // ----- get_contacts -----------------------------------------------------

  /** `SELECT ... OFFSET skip LIMIT limit` over the whole table. */
  function GetContacts(s: Store, skip: nat := 0, limit: nat := 10): (r: seq<Contact>)
    ensures |r| <= limit
    ensures skip >= |s| ==> r == []
    ensures skip < |s| ==> |r| == Min(limit, |s| - skip) && r <= s[skip..]
  {
    Page(s, skip, limit)
  }

  /** Listing 15 contacts ten at a time: a full first page and the remaining five. */
  lemma ListFifteen(s: Store)
    requires |s| == 15
    ensures GetContacts(s, 0, 10) == s[..10]
    ensures GetContacts(s, 10, 10) == s[10..]
    ensures GetContacts(s, 0, 10) + GetContacts(s, 10, 10) == s
  {
    PageSplit(s, 0, 10, 10);
    PageWhole(s, 20);
  }

  // ----- check_contact_email_exists / check_contact_phone_exists ----------

  /** Some stored contact has exactly this email (exact string equality). */
  function EmailExists(s: Store, email: string): (r: bool)
    ensures r <==> exists i :: 0 <= i < |s| && s[i].email == email
  {
    if s == [] then false
    else
      assert forall i :: 1 <= i < |s| ==> s[i] == s[1..][i - 1];
      s[0].email == email || EmailExists(s[1..], email)
  }

  /** Some stored contact has exactly this phone number. */
  function PhoneExists(s: Store, phone: string): (r: bool)
    ensures r <==> exists i :: 0 <= i < |s| && s[i].phoneNumber == phone
  {
    if s == [] then false
    else
      assert forall i :: 1 <= i < |s| ==> s[i] == s[1..][i - 1];
      s[0].phoneNumber == phone || PhoneExists(s[1..], phone)
  }

  // ----- id assignment ----------------------------------------------------

  function MaxId(s: Store): (m: nat)
    ensures forall i :: 0 <= i < |s| ==> s[i].id <= m
  {
    if s == [] then 0
    else
      var rest := MaxId(s[..|s| - 1]);
      assert forall i :: 0 <= i < |s| - 1 ==> s[i] == s[..|s| - 1][i];
      if s[|s| - 1].id > rest then s[|s| - 1].id else rest
  }

  /** The id the database hands the next inserted row: one no stored row has. */
  function NextId(s: Store): (id: nat)
    ensures id >= 1
    ensures !HasId(s, id)
  {
    MaxId(s) + 1
  }

  // ----- create_contact ---------------------------------------------------

  /**
   `create_contact` as written: it returns `None` unless the email AND the
   phone number already occur in the table; only then does it insert.
   */
  function Create(s: Store, input: ContactIn): (r: Step)
    ensures r.result.None? <==>
              || !(exists i :: 0 <= i < |s| && s[i].email == input.email)
              || !(exists i :: 0 <= i < |s| && s[i].phoneNumber == input.phoneNumber)
    ensures r.result.None? ==> r.store == s
    ensures r.result.Some? ==>
              && Fields(r.result.value) == input
              && !HasId(s, r.result.value.id)
              && r.store == s + [r.result.value]
    ensures DistinctIds(s) ==> DistinctIds(r.store)
  {
    if !EmailExists(s, input.email) then Step(None, s)
    else if !PhoneExists(s, input.phoneNumber) then Step(None, s)
    else
      var c := NewContact(NextId(s), input);
      Step(Some(c), s + [c])
  }

  /** With the inverted guard nothing can ever be inserted into an empty table. */
  lemma CreateOnEmptyStoreRejected(input: ContactIn)
    ensures Create([], input) == Step(None, [])
  {
  }

  /**
   Every insert that does happen duplicates an email already in the table:
   the guard admits only inputs that the handler's message says it rejects.
   */
  lemma CreateAlwaysDuplicatesEmail(s: Store, input: ContactIn)
    requires Create(s, input).result.Some?
    ensures exists i, j :: 0 <= i < j < |Create(s, input).store|
                           && Create(s, input).store[i].email == Create(s, input).store[j].email
  {
    var t := Create(s, input).store;
    var i :| 0 <= i < |s| && s[i].email == input.email;
    assert t[i].email == t[|s|].email;
  }

  // ----- get_contact ------------------------------------------------------

  /** Position of the first row with this id. */
  function IndexOf(s: Store, id: int): (r: Option<nat>)
    ensures r.None? <==> !HasId(s, id)
    ensures r.Some? ==> r.value < |s| && s[r.value].id == id
    ensures r.Some? ==> forall k :: 0 <= k < r.value ==> s[k].id != id
  {
    if s == [] then None
    else if s[0].id == id then Some(0)
    else
      assert forall i :: 1 <= i < |s| ==> s[i] == s[1..][i - 1];
      match IndexOf(s[1..], id)
      case None => None
      case Some(k) => Some(k + 1)
  }

  /** `db.get(Contact, contact_id)`: the row with that primary key, if any. */
  function GetContact(s: Store, id: int): (r: Option<Contact>)
    ensures r.None? <==> !HasId(s, id)
    ensures r.Some? ==> r.value in s && r.value.id == id
  {
    match IndexOf(s, id)
    case None => None
    case Some(i) => Some(s[i])
  }

  /** In a table with distinct ids, the row found is the only one with that id. */
  lemma GetContactUnique(s: Store, id: int, i: int)
    requires DistinctIds(s)
    requires 0 <= i < |s| && s[i].id == id
    ensures GetContact(s, id) == Some(s[i])
  {
  }

  // ----- update_contact ---------------------------------------------------

  /**
   Python truthiness of an optional string, the test `if contact_update.email:`:
   an unset field and the empty string are false, any other string is true.
   */
  function Truthy(o: Option<string>): (r: bool)
    ensures o.None? ==> !r
    ensures o == Some("") ==> !r
    ensures o.Some? && |o.value| > 0 ==> r
  {
    o.Some? && o.value != ""
  }

  /**
   `update_contact` as written. An absent id gives `None`. A truthy new
   email that does NOT yet occur in the table gives `None`, and likewise
   for the phone number; the test counts the target row itself. Otherwise
   every field in the patch overwrites the target row.
   */
  function Update(s: Store, id: int, p: Patch): (r: Step)
    ensures !HasId(s, id) ==> r == Step(None, s)
    ensures HasId(s, id) ==>
              (r.result.None? <==>
                || (Truthy(p.email) && !(exists i :: 0 <= i < |s| && s[i].email == p.email.value))
                || (Truthy(p.phoneNumber) && !(exists i :: 0 <= i < |s| && s[i].phoneNumber == p.phoneNumber.value)))
    ensures r.result.None? ==> r.store == s
    ensures r.result.Some? ==>
              && |r.store| == |s|
              && r.result.value.id == id
              && exists i :: && 0 <= i < |s| && s[i].id == id
                             && r.result.value == Apply(s[i], p)
                             && r.store == s[i := r.result.value]
    ensures DistinctIds(s) ==> DistinctIds(r.store)
  {
    match IndexOf(s, id)
    case None => Step(None, s)
    case Some(i) =>
      if Truthy(p.email) && !EmailExists(s, p.email.value) then Step(None, s)
      else if Truthy(p.phoneNumber) && !PhoneExists(s, p.phoneNumber.value) then Step(None, s)
      else
        var c := Apply(s[i], p);
        Step(Some(c), s[i := c])
  }

  /** Only the target row changes; every other row is left exactly as it was. */
  lemma UpdateLeavesOthers(s: Store, id: int, p: Patch, k: int)
    requires DistinctIds(s)
    requires 0 <= k < |s| && s[k].id != id
    ensures Update(s, id, p).store[k] == s[k]
  {
  }

  /** After a successful update, reading the id back gives the updated record. */
  lemma UpdateThenGet(s: Store, id: int, p: Patch)
    requires DistinctIds(s)
    requires Update(s, id, p).result.Some?
    ensures GetContact(Update(s, id, p).store, id) == Update(s, id, p).result
  {
    var r := Update(s, id, p);
    var i :| 0 <= i < |s| && s[i].id == id && r.result.value == Apply(s[i], p) && r.store == s[i := r.result.value];
    GetContactUnique(r.store, id, i);
  }

  /** An update that sets no field returns the record unchanged and changes nothing. */
  lemma UpdateNoChange(s: Store, id: int, i: int)
    requires DistinctIds(s)
    requires 0 <= i < |s| && s[i].id == id
    ensures Update(s, id, NoChange) == Step(Some(s[i]), s)
  {
    GetContactUnique(s, id, i);
    ApplyNoChange(s[i]);
    assert s[i := s[i]] == s;
  }

  /**
   A real `ContactUpdate` sets all six fields, so a successful update
   replaces every field of the target while keeping its id.
   */
  lemma UpdateReplacesAllFields(s: Store, id: int, u: ContactIn)
    requires Update(s, id, Dump(u)).result.Some?
    ensures Update(s, id, Dump(u)).result.value == NewContact(id, u)
  {
    var r := Update(s, id, Dump(u));
    var i :| 0 <= i < |s| && s[i].id == id && r.result.value == Apply(s[i], Dump(u)) && r.store == s[i := r.result.value];
    ApplyDump(s[i], u);
  }

  /** Changing a contact's email to one no contact has is refused. */
  lemma UpdateToFreshEmailRejected(s: Store, id: int, p: Patch)
    requires HasId(s, id)
    requires Truthy(p.email) && !EmailExists(s, p.email.value)
    ensures Update(s, id, p) == Step(None, s)
  {
  }

  /**
   Changing a contact's email to another contact's email is accepted, and
   leaves two rows with the same email.
   */
  lemma UpdateCanDuplicateEmail(a: Contact, b: Contact)
    requires a.id != b.id && a.email != b.email
    ensures var r := Update([a, b], a.id, NoChange.(email := Some(b.email)));
            && r.result.Some?
            && r.store[0].email == r.store[1].email
  {
    var s := [a, b];
    assert s[1].email == b.email;
  }

  // ----- delete_contact ---------------------------------------------------

  /**
   `delete_contact`: `None` when the id is absent; otherwise the row with
   that id is removed, the rest keep their order, and the removed row is
   returned.
   */
  function Delete(s: Store, id: int): (r: Step)
    ensures !HasId(s, id) ==> r == Step(None, s)
    ensures HasId(s, id) ==>
              && r.result.Some?
              && r.result.value.id == id
              && |r.store| == |s| - 1
              && exists i :: 0 <= i < |s| && s[i] == r.result.value && r.store == s[..i] + s[i + 1..]
    ensures DistinctIds(s) ==> DistinctIds(r.store) && !HasId(r.store, id)
  {
    match IndexOf(s, id)
    case None => Step(None, s)
    case Some(i) =>
      RemoveAt(s, i);
      Step(Some(s[i]), s[..i] + s[i + 1..])
  }

  /** Removing one row keeps ids distinct and leaves no other row with its id. */
  lemma RemoveAt(s: Store, i: nat)
    requires i < |s|
    ensures var t := s[..i] + s[i + 1..];
            && |t| == |s| - 1
            && (forall k :: 0 <= k < |t| ==> t[k] == (if k < i then s[k] else s[k + 1]))
            && (DistinctIds(s) ==> DistinctIds(t) && !HasId(t, s[i].id))
  {
    var t := s[..i] + s[i + 1..];
    assert forall k :: 0 <= k < |t| ==> t[k] == (if k < i then s[k] else s[k + 1]);
    if DistinctIds(s) {
      forall a, b | 0 <= a < b < |t| ensures t[a].id != t[b].id {
        var a' := if a < i then a else a + 1;
        var b' := if b < i then b else b + 1;
        assert t[a] == s[a'] && t[b] == s[b'] && a' < b';
      }
      forall k | 0 <= k < |t| ensures t[k].id != s[i].id {
        var k' := if k < i then k else k + 1;
        assert t[k] == s[k'] && k' != i;
      }
    }
  }

  /** Once deleted, an id is no longer found. */
  lemma DeleteThenGet(s: Store, id: int)
    requires DistinctIds(s)
    ensures GetContact(Delete(s, id).store, id) == None
  {
  }

  /** A created record is found again by its id. */
  lemma CreateThenGet(s: Store, input: ContactIn)
    requires DistinctIds(s)
    requires Create(s, input).result.Some?
    ensures GetContact(Create(s, input).store, Create(s, input).result.value.id)
            == Create(s, input).result
  {
    var r := Create(s, input);
    GetContactUnique(r.store, r.result.value.id, |s|);
  }

  /** Deleting the record just created restores the table it was created in. */
  lemma CreateThenDelete(s: Store, input: ContactIn)
    requires DistinctIds(s)
    requires Create(s, input).result.Some?
    ensures Delete(Create(s, input).store, Create(s, input).result.value.id)
            == Step(Create(s, input).result, s)
  {
    var r := Create(s, input);
    var c := r.result.value;
    assert r.store[|s|] == c;
    var i := IndexOf(r.store, c.id).value;
    assert i == |s|;
    assert r.store[..|s|] == s;
  }

  // ----- get_contacts_by_query --------------------------------------------

  /** The lower-cased query occurs at some position of the lower-cased field. */
  ghost predicate OccursIgnoringCase(field: string, q: string) {
    exists i :: OccursAt(Lower(q), Lower(field), i)
  }

  /**
   The search condition, four `ILIKE '%q%'` tests joined by OR: the
   lower-cased query occurs somewhere in the lower-cased firstname,
   lastname, email or phone number. The empty query matches every contact.
   */
  function MatchesQuery(c: Contact, q: string): (r: bool)
    ensures r <==> || OccursIgnoringCase(c.firstname, q)
                   || OccursIgnoringCase(c.lastname, q)
                   || OccursIgnoringCase(c.email, q)
                   || OccursIgnoringCase(c.phoneNumber, q)
    ensures q == "" ==> r
  {
    ILikeEmpty(c.firstname);
    assert ILike(c.firstname, q) == OccursIgnoringCase(c.firstname, q);
    assert ILike(c.lastname, q) == OccursIgnoringCase(c.lastname, q);
    assert ILike(c.email, q) == OccursIgnoringCase(c.email, q);
    assert ILike(c.phoneNumber, q) == OccursIgnoringCase(c.phoneNumber, q);
    ILike(c.firstname, q) || ILike(c.lastname, q) || ILike(c.email, q) || ILike(c.phoneNumber, q)
  }

  /** `get_contacts_by_query`: the matching rows in table order, then OFFSET/LIMIT. */
  function GetContactsByQuery(s: Store, q: string, skip: nat := 0, limit: nat := 10): (r: seq<Contact>)
    ensures |r| <= limit
    ensures forall c :: c in r ==> c in s && MatchesQuery(c, q)
    ensures skip == 0 && limit >= |s| ==> forall c :: c in s && MatchesQuery(c, q) ==> c in r
  {
    var matching := Filter(s, c => MatchesQuery(c, q));
    assert skip == 0 && limit >= |s| ==> Page(matching, skip, limit) == matching by {
      if skip == 0 && limit >= |s| {
        PageWhole(matching, limit);
      }
    }
    Page(matching, skip, limit)
  }

  /**
   The WHERE clause comes before OFFSET/LIMIT: every search page is a page
   of the one unpaged list of matches.
   */
  lemma SearchIsPageOfMatches(s: Store, q: string, skip: nat, limit: nat)
    ensures GetContactsByQuery(s, q, skip, limit) == Page(GetContactsByQuery(s, q, 0, |s|), skip, limit)
  {
    PageWhole(Filter(s, c => MatchesQuery(c, q)), |s|);
  }

  /**
   Consecutive search pages read back to back give the page that spans
   both.
   */
  lemma SearchSplit(s: Store, q: string, a: nat, b: nat)
    ensures GetContactsByQuery(s, q, 0, a) + GetContactsByQuery(s, q, a, b)
            == GetContactsByQuery(s, q, 0, a + b)
  {
    PageSplit(Filter(s, c => MatchesQuery(c, q)), 0, a, b);
  }

  /**
   Search results keep table order: the unpaged matches in a concatenated
   table are the matches in the first part followed by those in the second.
   */
  lemma SearchAppend(s: Store, t: Store, q: string)
    ensures GetContactsByQuery(s + t, q, 0, |s + t|)
            == GetContactsByQuery(s, q, 0, |s|) + GetContactsByQuery(t, q, 0, |t|)
  {
    var f := c => MatchesQuery(c, q);
    FilterAppend(s, t, f);
    PageWhole(Filter(s + t, f), |s + t|);
    PageWhole(Filter(s, f), |s|);
    PageWhole(Filter(t, f), |t|);
  }

  /** With no paging cut, the search returns every matching contact and nothing else. */
  lemma SearchSoundComplete(s: Store, q: string, limit: nat, c: Contact)
    requires limit >= |s|
    ensures c in GetContactsByQuery(s, q, 0, limit) <==> c in s && MatchesQuery(c, q)
  {
    PageWhole(Filter(s, c => MatchesQuery(c, q)), limit);
  }

  /** The empty query matches everything, so the search is the plain listing. */
  lemma SearchEmptyQuery(s: Store, skip: nat, limit: nat)
    ensures GetContactsByQuery(s, "", skip, limit) == GetContacts(s, skip, limit)
  {
    forall i | 0 <= i < |s| ensures MatchesQuery(s[i], "") {
      ILikeEmpty(s[i].firstname);
    }
    FilterAll(s, c => MatchesQuery(c, ""));
  }

  /** A contact whose last name contains the query verbatim is found. */
  lemma SearchFindsLastname(s: Store, q: string, c: Contact, at: int)
    requires c in s && OccursAt(q, c.lastname, at)
    requires |s| <= 10
    ensures c in GetContactsByQuery(s, q)
  {
    ILikeOfSubstring(c.lastname, q, at);
    SearchSoundComplete(s, q, 10, c);
  }

  // ----- get_contacts_by_birthdays ----------------------------------------

  /** Every stored birthday is a date Python can hold. */
  predicate ValidBirthdays(s: Store) {
    forall i :: 0 <= i < |s| ==> Valid(s[i].birthday)
  }

  /**
   The helper's test as written: the birthday moved into today's year lies
   between `today - days` and `today`, both ends included.
   */
  function InBackwardWindow(b: Date, today: Date, days: int): (r: bool)
    requires Valid(b) && Valid(today)
    ensures r ==> ReplaceYear(b, today.year).Some?
    ensures r ==> DateLe(ReplaceYear(b, today.year).value, today)
    ensures days < 0 ==> !r
    ensures ReplaceYear(b, today.year) == Some(today) && days >= 0 ==> r
  {
    var md := ReplaceYear(b, today.year);
    if md.Some? then
      OrdinalOrder(md.value, today);
      Ordinal(today) - days <= Ordinal(md.value) <= Ordinal(today)
    else
      false
  }

  /**
   The window on ordinals is the source's `today >= month_day >= start`
   on dates, where `start` is the date `days` days before today.
   */
  lemma BackwardWindowIsDateComparison(b: Date, today: Date, days: int, start: Date)
    requires Valid(b) && Valid(today) && Valid(start)
    requires Ordinal(start) == Ordinal(today) - days
    requires ReplaceYear(b, today.year).Some?
    ensures InBackwardWindow(b, today, days) <==>
              var md := ReplaceYear(b, today.year).value;
              DateLe(start, md) && DateLe(md, today)
  {
    var md := ReplaceYear(b, today.year).value;
    OrdinalOrder(start, md);
    OrdinalOrder(md, today);
  }

  /**
   Whether evaluating the helper on this contact raises: `replace` raises
   ValueError for 29 February in a common year, and `today - timedelta`
   raises OverflowError when the window start is not a representable date.
   */
  function BirthdayRaises(c: Contact, today: Date, days: int): (r: bool)
    requires Valid(c.birthday) && Valid(today)
    ensures r <==> (|| (c.birthday.month == 2 && c.birthday.day == 29 && !IsLeap(today.year))
                    || Ordinal(today) - days < 1
                    || Ordinal(today) - days > MaxOrdinal)
  {
    ReplaceYear(c.birthday, today.year).None? || !OrdinalInRange(Ordinal(today) - days)
  }

  /**
   `get_contacts_by_birthdays` as written: the contacts whose birthday this
   year falls in the backward window, in table order; `skip` and `limit`
   are accepted and ignored. `None` stands for the exception the helper
   raises (a 29 February birthday in a common year, or a window start
   before 0001-01-01 or after 9999-12-31), which it can only do once
   there is a contact to test.
   */
  function GetContactsByBirthdays(s: Store, today: Date, days: int, skip: int := 0, limit: int := 10)
    : (r: Option<seq<Contact>>)
    requires Valid(today) && ValidBirthdays(s)
    ensures r.None? <==>
              && |s| > 0
              && (|| !OrdinalInRange(Ordinal(today) - days)
                  || exists i :: 0 <= i < |s| && s[i].birthday.month == 2 && s[i].birthday.day == 29
                                               && !IsLeap(today.year))
    ensures r.Some? ==> |r.value| <= |s|
    ensures r.Some? ==> forall i :: 0 <= i < |s| ==>
              (s[i] in r.value <== InBackwardWindow(s[i].birthday, today, days))
    ensures r.Some? ==> forall c :: c in r.value ==> c in s && Valid(c.birthday)
                                                     && InBackwardWindow(c.birthday, today, days)
  {
    if exists i :: 0 <= i < |s| && BirthdayRaises(s[i], today, days) then None
    else Some(Filter(s, (c: Contact) => Valid(c.birthday) && InBackwardWindow(c.birthday, today, days)))
  }

  /** Birthday results keep table order: the filter of a concatenation concatenates. */
  lemma BirthdaysInStoreOrder(s: Store, t: Store, today: Date, days: int)
    requires Valid(today) && ValidBirthdays(s) && ValidBirthdays(t)
    requires GetContactsByBirthdays(s + t, today, days).Some?
    ensures GetContactsByBirthdays(s, today, days).Some?
    ensures GetContactsByBirthdays(t, today, days).Some?
    ensures GetContactsByBirthdays(s + t, today, days).value
            == GetContactsByBirthdays(s, today, days).value + GetContactsByBirthdays(t, today, days).value
  {
    assert forall i :: 0 <= i < |s| ==> s[i] == (s + t)[i];
    assert forall i :: 0 <= i < |t| ==> t[i] == (s + t)[|s| + i];
    FilterAppend(s, t, (c: Contact) => Valid(c.birthday) && InBackwardWindow(c.birthday, today, days));
  }

  /** The paging arguments change nothing. */
  lemma BirthdaysIgnorePaging(s: Store, today: Date, days: int, skip: int, limit: int)
    requires Valid(today) && ValidBirthdays(s)
    ensures GetContactsByBirthdays(s, today, days, skip, limit) == GetContactsByBirthdays(s, today, days)
  {
  }

  /**
   The window points backwards: a birthday three days away is not reported,
   one that was two days ago is.
   */
  lemma BackwardWindowExample(c: Contact)
    requires c.birthday == Date(1990, 3, 10)
    ensures GetContactsByBirthdays([c], Date(2024, 3, 7), 5) == Some([])
    ensures GetContactsByBirthdays([c], Date(2024, 3, 12), 5) == Some([c])
  {
    var f1 := (x: Contact) => Valid(x.birthday) && InBackwardWindow(x.birthday, Date(2024, 3, 7), 5);
    assert !f1(c);
    assert Filter([c], f1) == [];
    var f2 := (x: Contact) => Valid(x.birthday) && InBackwardWindow(x.birthday, Date(2024, 3, 12), 5);
    assert f2(c);
    assert Filter([c], f2) == [c];
  }
}

=== FILE: dates.dfy ===
/**
 Calendar dates as Python's `datetime.date` represents them: proleptic
 Gregorian, years 1 through 9999, ordered lexicographically by
 (year, month, day), with day arithmetic done on the day ordinal
 (0001-01-01 has ordinal 1).
 */
module Dates {
  import opened Options

  datatype Date = Date(year: int, month: int, day: int)

  const MinYear: int := 1
  const MaxYear: int := 9999
  /** Ordinal of 9999-12-31, the last date Python can represent. */
  const MaxOrdinal: int := 3652059

  predicate IsLeap(y: int) {
    y % 4 == 0 && (y % 100 != 0 || y % 400 == 0)
  }

  function DaysInMonth(y: int, m: int): int
    requires 1 <= m <= 12
  {
    if m == 2 then (if IsLeap(y) then 29 else 28)
    else if m == 4 || m == 6 || m == 9 || m == 11 then 30
    else 31
  }

  function DaysInYear(y: int): int {
    if IsLeap(y) then 366 else 365
  }

  /** A date Python can construct. */
  predicate Valid(d: Date) {
    && MinYear <= d.year <= MaxYear
    && 1 <= d.month <= 12
    && 1 <= d.day <= DaysInMonth(d.year, d.month)
  }

  /** Python's `a <= b` on dates: tuple order on (year, month, day). */
  predicate DateLe(a: Date, b: Date) {
    || a.year < b.year
    || (a.year == b.year && a.month < b.month)
    || (a.year == b.year && a.month == b.month && a.day <= b.day)
  }

  /** Days in the years before `y`. */
  function DaysBeforeYear(y: int): int
    requires y >= 1
  {
    var k := y - 1;
    365 * k + k / 4 - k / 100 + k / 400
  }

  /** Days in the months of year `y` before month `m` (13 stands for the year's end). */
  function DaysBeforeMonth(y: int, m: int): int
    requires 1 <= m <= 13
  {
    var common :=
      if m == 1 then 0 else if m == 2 then 31 else if m == 3 then 59
      else if m == 4 then 90 else if m == 5 then 120 else if m == 6 then 151
      else if m == 7 then 181 else if m == 8 then 212 else if m == 9 then 243
      else if m == 10 then 273 else if m == 11 then 304 else if m == 12 then 334
      else 365;
    common + (if m > 2 && IsLeap(y) then 1 else 0)
  }

  /** Python's `date.toordinal()`. */
  function Ordinal(d: Date): int
    requires Valid(d)
  {
    DaysBeforeYear(d.year) + DaysBeforeMonth(d.year, d.month) + d.day
  }

  /**
   `d.replace(year=y)`: the same month and day in year `y`, or `None` where
   Python raises ValueError because that day does not exist in year `y`.
   */
  function ReplaceYear(d: Date, y: int): (r: Option<Date>)
    requires Valid(d)
    requires MinYear <= y <= MaxYear
    ensures r.None? <==> d.month == 2 && d.day == 29 && !IsLeap(y)
    ensures r.Some? ==> Valid(r.value) && r.value.year == y
                        && r.value.month == d.month && r.value.day == d.day
  {
    if d.day <= DaysInMonth(y, d.month) then Some(Date(y, d.month, d.day)) else None
  }

  /** Each month adds exactly its own length. */
  lemma DaysBeforeMonthStep(y: int, m: int)
    requires 1 <= m <= 12
    ensures DaysBeforeMonth(y, m + 1) == DaysBeforeMonth(y, m) + DaysInMonth(y, m)
  {
  }

  lemma {:induction false} DaysBeforeMonthMonotone(y: int, m1: int, m2: int)
    requires 1 <= m1 <= m2 <= 13
    ensures DaysBeforeMonth(y, m1) <= DaysBeforeMonth(y, m2)
  {
    if m1 < m2 {
      DaysBeforeMonthStep(y, m2 - 1);
      DaysBeforeMonthMonotone(y, m1, m2 - 1);
    }
  }

  lemma DaysBeforeMonthYear(y: int)
    ensures DaysBeforeMonth(y, 13) == DaysInYear(y)
  {
  }

  /** One step of the closed form: the year `y` adds exactly its own length. */
  lemma DaysBeforeYearStep(y: int)
    requires y >= 1
    ensures DaysBeforeYear(y + 1) == DaysBeforeYear(y) + DaysInYear(y)
  {
    var k := y - 1;
    DivStep4(k);
    DivStep100(k);
    DivStep400(k);
    LeapDivisors(y);
  }

  lemma DivStep4(k: int)
    requires k >= 0
    ensures (k + 1) / 4 == k / 4 + (if (k + 1) % 4 == 0 then 1 else 0)
  {
  }

  lemma DivStep100(k: int)
    requires k >= 0
    ensures (k + 1) / 100 == k / 100 + (if (k + 1) % 100 == 0 then 1 else 0)
  {
  }

  lemma DivStep400(k: int)
    requires k >= 0
    ensures (k + 1) / 400 == k / 400 + (if (k + 1) % 400 == 0 then 1 else 0)
  {
  }

  lemma LeapDivisors(y: int)
    ensures y % 400 == 0 ==> y % 100 == 0
    ensures y % 100 == 0 ==> y % 4 == 0
  {
  }

  lemma {:induction false} DaysBeforeYearMonotone(y1: int, y2: int)
    requires 1 <= y1 < y2
    ensures DaysBeforeYear(y1) + DaysInYear(y1) <= DaysBeforeYear(y2)
    decreases y2 - y1
  {
    DaysBeforeYearStep(y1);
    if y1 + 1 < y2 {
      DaysBeforeYearMonotone(y1 + 1, y2);
    }
  }

  /** A valid date's ordinal lies within its own year. */
  lemma OrdinalWithinYear(d: Date)
    requires Valid(d)
    ensures DaysBeforeYear(d.year) < Ordinal(d) <= DaysBeforeYear(d.year) + DaysInYear(d.year)
  {
    DaysBeforeMonthStep(d.year, d.month);
    DaysBeforeMonthMonotone(d.year, d.month + 1, 13);
    DaysBeforeMonthYear(d.year);
  }

  /** Strictly earlier dates have strictly smaller ordinals. */
  lemma OrdinalStrict(a: Date, b: Date)
    requires Valid(a) && Valid(b)
    requires DateLe(a, b) && a != b
    ensures Ordinal(a) < Ordinal(b)
  {
    if a.year < b.year {
      OrdinalWithinYear(a);
      OrdinalWithinYear(b);
      DaysBeforeYearMonotone(a.year, b.year);
    } else if a.month < b.month {
      DaysBeforeMonthStep(a.year, a.month);
      DaysBeforeMonthMonotone(a.year, a.month + 1, b.month);
    }
  }

  /**
   Comparing ordinals is comparing dates: the window arithmetic below, done on
   ordinals, decides exactly what Python's date comparisons decide.
   */
  lemma OrdinalOrder(a: Date, b: Date)
    requires Valid(a) && Valid(b)
    ensures DateLe(a, b) <==> Ordinal(a) <= Ordinal(b)
  {
    if DateLe(a, b) && a != b {
      OrdinalStrict(a, b);
    } else if !DateLe(a, b) {
      OrdinalStrict(b, a);
    }
  }

  /** Distinct valid dates have distinct ordinals. */
  lemma OrdinalInjective(a: Date, b: Date)
    requires Valid(a) && Valid(b)
    requires Ordinal(a) == Ordinal(b)
    ensures a == b
  {
    OrdinalOrder(a, b);
    OrdinalOrder(b, a);
  }

  lemma MaxOrdinalIsLastDate()
    ensures Valid(Date(MaxYear, 12, 31)) && Ordinal(Date(MaxYear, 12, 31)) == MaxOrdinal
  {
  }

  /**
   `today - timedelta(days=n)` (or `+`) is defined, without OverflowError,
   exactly when the resulting ordinal names a representable date.
   */
  predicate OrdinalInRange(n: int) {
    1 <= n <= MaxOrdinal
  }

  /** Every valid date's ordinal is in range, so ordinals stand for dates. */
  lemma ValidOrdinalInRange(d: Date)
    requires Valid(d)
    ensures OrdinalInRange(Ordinal(d))
  {
    OrdinalOrder(d, Date(MaxYear, 12, 31));
    OrdinalOrder(Date(MinYear, 1, 1), d);
  }
}

=== FILE: options.dfy ===
/** The optional result the store returns where the source returns a record or `None`. */
module Options {

  datatype Option<+T> = None | Some(value: T) {

    /** The wrapped value, or `default` when there is none. */
    function GetOr(default: T): T {
      match this
      case Some(v) => v
      case None => default
    }
  }
}

=== FILE: schema.dfy ===
/**
 The contact record and the payloads that create and update it.
 `ContactIn` is `ContactCreate` (and `ContactUpdate`, which adds nothing);
 `Patch` is what `model_dump(exclude_unset=True)` yields: each field either
 set (`Some`) or absent (`None`).
 */
module Schema {
  import opened Options
  import opened Dates

  /** A stored contact: the six payload fields plus the store-assigned id. */
  datatype Contact = Contact(
    id: nat,
    firstname: string,
    lastname: string,
    email: string,
    phoneNumber: string,
    birthday: Date,
    otherDetails: string)

  /** The create payload; the update payload has the same six required fields. */
  datatype ContactIn = ContactIn(
    firstname: string,
    lastname: string,
    email: string,
    phoneNumber: string,
    birthday: Date,
    otherDetails: string)

  /** The fields a dumped update payload carries. */
  datatype Patch = Patch(
    firstname: Option<string>,
    lastname: Option<string>,
    email: Option<string>,
    phoneNumber: Option<string>,
    birthday: Option<Date>,
    otherDetails: Option<string>)

  const NoChange: Patch := Patch(None, None, None, None, None, None)

  /** The record built from a create payload once the store has chosen its id. */
  function NewContact(id: nat, input: ContactIn): (c: Contact)
    ensures c.id == id && Fields(c) == input
  {
    Contact(id, input.firstname, input.lastname, input.email,
            input.phoneNumber, input.birthday, input.otherDetails)
  }

  /** A record's payload fields: the response body minus the id. */
  function Fields(c: Contact): ContactIn {
    ContactIn(c.firstname, c.lastname, c.email, c.phoneNumber, c.birthday, c.otherDetails)
  }

  /**
   `model_dump(exclude_unset=True)` of a `ContactUpdate`: every field is
   required, so every field is set.
   */
  function Dump(u: ContactIn): (p: Patch)
    ensures p.firstname.Some? && p.lastname.Some? && p.email.Some?
    ensures p.phoneNumber.Some? && p.birthday.Some? && p.otherDetails.Some?
  {
    Patch(Some(u.firstname), Some(u.lastname), Some(u.email),
          Some(u.phoneNumber), Some(u.birthday), Some(u.otherDetails))
  }

  /**
   The `setattr` loop: each field present in the patch overwrites the
   record's field; the id and every absent field stay as they were.
   */
  function Apply(c: Contact, p: Patch): (r: Contact)
    ensures r.id == c.id
    ensures r.firstname == p.firstname.GetOr(c.firstname)
    ensures r.lastname == p.lastname.GetOr(c.lastname)
    ensures r.email == p.email.GetOr(c.email)
    ensures r.phoneNumber == p.phoneNumber.GetOr(c.phoneNumber)
    ensures r.birthday == p.birthday.GetOr(c.birthday)
    ensures r.otherDetails == p.otherDetails.GetOr(c.otherDetails)
  {
    c.(firstname := p.firstname.GetOr(c.firstname),
       lastname := p.lastname.GetOr(c.lastname),
       email := p.email.GetOr(c.email),
       phoneNumber := p.phoneNumber.GetOr(c.phoneNumber),
       birthday := p.birthday.GetOr(c.birthday),
       otherDetails := p.otherDetails.GetOr(c.otherDetails))
  }

  /** A patch with no fields set changes nothing. */
  lemma ApplyNoChange(c: Contact)
    ensures Apply(c, NoChange) == c
  {
  }

  /** Applying a dumped `ContactUpdate` replaces all six fields and keeps the id. */
  lemma ApplyDump(c: Contact, u: ContactIn)
    ensures Apply(c, Dump(u)) == NewContact(c.id, u)
  {
  }
}

=== FILE: seqs.dfy ===
/**
 Sequence helpers shared by the listing operations: SQL-style OFFSET/LIMIT
 paging and an order-preserving filter.
 */
module Seqs {

  function Min(a: int, b: int): int {
    if a <= b then a else b
  }

  /**
   `OFFSET skip LIMIT limit` over a result list in store order: the elements
   from position `skip` on, at most `limit` of them, nothing once `skip`
   passes the end.
   */
  function Page<T>(s: seq<T>, skip: nat, limit: nat): (r: seq<T>)
    ensures |r| <= limit
    ensures skip >= |s| ==> r == []
    ensures skip < |s| ==> |r| == Min(limit, |s| - skip) && r <= s[skip..]
    ensures forall x :: x in r ==> x in s
  {
    if skip >= |s| then [] else s[skip..skip + Min(limit, |s| - skip)]
  }

  /** Two consecutive pages read back to back give the page that spans both. */
  lemma PageSplit<T>(s: seq<T>, skip: nat, a: nat, b: nat)
    ensures Page(s, skip, a) + Page(s, skip + a, b) == Page(s, skip, a + b)
  {
    if skip + a < |s| {
      assert Page(s, skip, a) == s[skip..skip + a];
    }
  }

  /** A page starting at 0 whose limit covers the whole list is the list. */
  lemma PageWhole<T>(s: seq<T>, limit: nat)
    requires limit >= |s|
    ensures Page(s, 0, limit) == s
  {
  }

  /** The elements of `s` satisfying `f`, in the order they appear in `s`. */
  function Filter<T>(s: seq<T>, f: T -> bool): (r: seq<T>)
    ensures |r| <= |s|
    ensures forall x :: x in r ==> x in s && f(x)
    ensures forall x :: x in s && f(x) ==> x in r
  {
    if s == [] then []
    else if f(s[0]) then [s[0]] + Filter(s[1..], f)
    else Filter(s[1..], f)
  }

  /** Filtering distributes over concatenation: store order is kept. */
  lemma {:induction false} FilterAppend<T>(s: seq<T>, t: seq<T>, f: T -> bool)
    ensures Filter(s + t, f) == Filter(s, f) + Filter(t, f)
  {
    if s == [] {
      assert s + t == t;
    } else {
      assert (s + t)[1..] == s[1..] + t;
      FilterAppend(s[1..], t, f);
    }
  }

  /** A filter every element passes returns its input unchanged. */
  lemma {:induction false} FilterAll<T>(s: seq<T>, f: T -> bool)
    requires forall i :: 0 <= i < |s| ==> f(s[i])
    ensures Filter(s, f) == s
  {
    if s != [] {
      FilterAll(s[1..], f);
    }
  }
}

=== FILE: text.dfy ===
/**
 Case-insensitive substring matching, the meaning of `column ILIKE '%q%'`
 restricted to ASCII case folding and a pattern without wildcards.
 */
module Text {

  predicate IsUpper(c: char) {
    'A' <= c <= 'Z'
  }

  /** Two characters that are equal, or an ASCII capital and its lower-case partner. */
  predicate SameUpToCase(a: char, b: char) {
    || a == b
    || (IsUpper(a) && b as int == a as int + 32)
    || (IsUpper(b) && a as int == b as int + 32)
  }

  /** Two strings that differ at most in the case of ASCII letters. */
  predicate SameTextUpToCase(s: string, t: string) {
    |s| == |t| && forall i :: 0 <= i < |s| ==> SameUpToCase(s[i], t[i])
  }

  function LowerChar(c: char): (r: char)
    ensures !IsUpper(r)
    ensures !IsUpper(c) ==> r == c
    ensures IsUpper(c) ==> r as int == c as int + 32
  {
    if IsUpper(c) then (c as int + 32) as char else c
  }

  /**
   ASCII lower-casing: every capital becomes its lower-case partner, so no
   upper-case letter survives, and everything else is kept.
   */
  function Lower(s: string): (r: string)
    ensures |r| == |s|
    ensures forall i :: 0 <= i < |s| ==> !IsUpper(r[i])
    ensures forall i :: 0 <= i < |s| && !IsUpper(s[i]) ==> r[i] == s[i]
    ensures forall i :: 0 <= i < |s| && IsUpper(s[i]) ==> r[i] as int == s[i] as int + 32
  {
    if s == [] then [] else [LowerChar(s[0])] + Lower(s[1..])
  }

  /** Lower-casing twice is lower-casing once. */
  lemma {:induction false} LowerIdempotent(s: string)
    ensures Lower(Lower(s)) == Lower(s)
  {
    var t := Lower(s);
    assert forall i :: 0 <= i < |t| ==> !IsUpper(t[i]);
    LowerKeepsLower(t);
  }

  lemma {:induction false} LowerKeepsLower(t: string)
    requires forall i :: 0 <= i < |t| ==> !IsUpper(t[i])
    ensures Lower(t) == t
  {
    if t != [] {
      LowerKeepsLower(t[1..]);
    }
  }

  /** `pat` occurs in `s` starting at position `i`. */
  predicate OccursAt(pat: string, s: string, i: int) {
    0 <= i <= |s| && pat <= s[i..]
  }

  /** Substring containment. */
  function Contains(s: string, pat: string): (r: bool)
    ensures r <==> exists i :: OccursAt(pat, s, i)
  {
    if pat <= s then
      assert OccursAt(pat, s, 0);
      true
    else if s == [] then
      false
    else
      var r := Contains(s[1..], pat);
      assert forall i :: 1 <= i <= |s| ==> (OccursAt(pat, s, i) <==> OccursAt(pat, s[1..], i - 1)) by {
        forall i | 1 <= i <= |s| ensures OccursAt(pat, s, i) <==> OccursAt(pat, s[1..], i - 1) {
          assert s[i..] == s[1..][i - 1..];
        }
      }
      if r then
        var j :| OccursAt(pat, s[1..], j);
        assert OccursAt(pat, s, j + 1);
        true
      else
        false
  }

  /** `s ILIKE '%pat%'`: `pat` occurs in `s` when both are lower-cased. */
  predicate ILike(s: string, pat: string) {
    Contains(Lower(s), Lower(pat))
  }

  /** The empty pattern matches every string. */
  lemma ILikeEmpty(s: string)
    ensures ILike(s, "")
  {
    assert OccursAt(Lower(""), Lower(s), 0);
  }

  /** Matching ignores the case of the text and of the pattern. */
  lemma ILikeIgnoresCase(s: string, pat: string)
    ensures ILike(Lower(s), pat) == ILike(s, pat)
    ensures ILike(s, Lower(pat)) == ILike(s, pat)
  {
    LowerIdempotent(s);
    LowerIdempotent(pat);
  }

  /** Strings that differ only in the case of their letters lower-case alike. */
  lemma LowerCaseBlind(s: string, t: string)
    requires SameTextUpToCase(s, t)
    ensures Lower(s) == Lower(t)
  {
    forall i | 0 <= i < |s| ensures Lower(s)[i] == Lower(t)[i] {
      assert SameUpToCase(s[i], t[i]);
    }
  }

  /**
   Matching is blind to case: changing the case of any letters of the text
   or of the pattern does not change whether they match.
   */
  lemma ILikeCaseBlind(s: string, s': string, pat: string, pat': string)
    requires SameTextUpToCase(s, s') && SameTextUpToCase(pat, pat')
    ensures ILike(s, pat) == ILike(s', pat')
  {
    LowerCaseBlind(s, s');
    LowerCaseBlind(pat, pat');
  }

  /** A capitalised name is found by its lower-case spelling. */
  lemma ILikeExample()
    ensures ILike("Smith", "smith")
    ensures ILike("smith", "SMITH")
  {
    ILikeOfSubstring("smith", "smith", 0);
    assert SameTextUpToCase("smith", "Smith");
    assert SameTextUpToCase("smith", "SMITH");
    ILikeCaseBlind("smith", "Smith", "smith", "smith");
    ILikeCaseBlind("smith", "smith", "smith", "SMITH");
  }

  /** A pattern found verbatim is found case-insensitively. */
  lemma {:induction false} ILikeOfSubstring(s: string, pat: string, i: int)
    requires OccursAt(pat, s, i)
    ensures ILike(s, pat)
  {
    LowerSlice(s, i, i + |pat|);
    LowerSlice(pat, 0, |pat|);
    assert Lower(pat) <= Lower(s)[i..] by {
      assert pat == s[i..i + |pat|];
      assert Lower(s)[i..i + |pat|] == Lower(s[i..i + |pat|]);
    }
    assert OccursAt(Lower(pat), Lower(s), i);
  }

  /** Lower-casing commutes with slicing. */
  lemma LowerSlice(s: string, lo: int, hi: int)
    requires 0 <= lo <= hi <= |s|
    ensures Lower(s)[lo..hi] == Lower(s[lo..hi])
  {
    LowerPointwise(s);
    LowerPointwise(s[lo..hi]);
  }

  lemma LowerPointwise(s: string)
    ensures forall i :: 0 <= i < |s| ==> Lower(s)[i] == LowerChar(s[i])
  {
  }
}
